=== FILE: README.md ===
# Traffic-flow forecast inputs, in Dafny

This project models the core of a traffic-flow predictor for SCATS sensor
sites. A forecast request names a location, a date, a number of 15-minute
steps and a model. The predictor:

- turns the request into the rows a trained network consumes;
- turns the network's scaled output back into vehicle flows;
- sums those flows into one number.

Three source files are modelled, one or two Dafny modules each:

- `TrafficData/TrafficFlowPredictor.py` is modelled by module `Forecast` (forecast.dfy), with `Scaling` (scaling.dfy) for its four min-max scalers.
  - The calendar path is used for the `"average"` model. It builds one (weekday, minute, location) triple per step.
  - The historical path is used for every other model. It looks up the location's rows in the series table, memoised per location, and takes the 96-row block of the requested day. When that block is empty it steps back seven days at a time. Then it clamps the horizon to the rows left in the block.
  - A missing model gives `400 * steps`. A missing window gives `0`. Missing data files give fixed scaler ranges.
- `ModelPerScats/data/data.py` is modelled by module `SeriesData` (series_data.dfy). It covers the lag-window table: `lags` consecutive scaled flows followed by the next flow as target. Train rows come first, then test rows. The train split is shuffled, and the table is split into feature and target columns.
- `data/traffic_incidents.py` is modelled by module `Incidents` (incidents.dfy). It covers expiry of active incidents, `add_incident`, and the flow multiplier of one location: the product of `1 - severity`, floored at 0.1.

Shared helpers:

- `PySeq` (pyseq.dfy) gives Python's slice semantics, where negative bounds count from the end and bounds are clamped. It also gives the order-keeping list comprehension `Filter` and `Sum`.
- `Wrappers` (wrappers.dfy) gives `Option`, which stands for Python's `None`, and `Result`, which stands for raised exceptions.

Modelling choices:

- Scaling uses exact `real`s. A fitted scaler is the pair (observed minimum, observed maximum). Transforming maps `v` to `(v - lo) / (hi - lo)`. A zero range divides by 1 instead, as scikit-learn does.
- The predictor's location memo is a `map` inside an immutable `Predictor` value. Every operation that may fill the memo returns the new predictor alongside its result.
- The trained network is an arbitrary function from rows to scaled flows (`Net`). Whether a model file exists is an `Option<Net>` parameter.
- Dates are (day of month, weekday, hour, minute). Incident times are whole minutes.
- The historical path's gap-fill loop can step to day 0 or below. The slice `location_X[(day-1)*96:day*96]` then follows Python semantics: a negative bound wraps to the end of the rows. For example, with 200 rows and day 13, the loop ends on day -1 and uses rows 8..103 (`GapFillWrapsAround`). This is modelled as written.
- The calendar path with `steps <= 0` hands zero samples to the scaler, and scikit-learn rejects that. It is modelled as the error `NoSamples`. So the `if X is None: return 0` on that path never fires.
- When the data files are absent, the series table is the plain list `[]`. Indexing that list with a list of indices raises a `TypeError`. It is modelled as the error `FallbackTableUnindexable`, and the memo is left untouched.
- In `process_data`, fitting or transforming an empty column raises, which gives `EmptyColumn`. If either window table is empty, `train[:, :-1]` or `test[:, :-1]` raises, which gives `NoWindows`.
- `np.random.shuffle` is modelled as a Fisher-Yates pass. Its random choices are a parameter (`picks`).
- The flow multiplier loop multiplies only for incidents at the location. It is modelled as filtering those incidents in list order and then taking the running product of their `1 - severity`.

## Model

| member | source | states |
|---|---|---|
| PySeq.PySlice | TrafficData/TrafficFlowPredictor.py:150-155 | `s[a:b]` has length = distance between the normalised bounds. Its elements are contiguous from the normalised start. In-range bounds give the ordinary slice. Negative bounds wrap from the end. A stop of 0 gives nothing. |
| PySeq.Sum | TrafficData/TrafficFlowPredictor.py:112 | Non-negative flows sum to a non-negative total. |
| PySeq.SumConcat | TrafficData/TrafficFlowPredictor.py:112 | The sum of a concatenation is the sum of the parts' sums. |
| PySeq.Filter | data/traffic_incidents.py:63-66 | The comprehension keeps exactly the qualifying elements: every element kept qualifies and comes from the list, and every qualifying element is kept. |
| PySeq.FilterKeepsNothing | data/traffic_incidents.py:77-78 | When no element qualifies, the comprehension is empty. |
| PySeq.FilterConcat | data/traffic_incidents.py:63-66 | Filtering a concatenation is the concatenation of the filtered parts, so relative order is preserved. |
| PySeq.FilterCommute | data/traffic_incidents.py:63-66 | Filtering by two conditions gives the same list in either order. Expiring and then selecting a location equals selecting and then expiring. |
| PySeq.FilterSkipsRejected | data/traffic_incidents.py:77-78 | A rejected element contributes nothing to the comprehension, wherever it sits in the list. |
| PySeq.FilterNarrow | data/traffic_incidents.py:61-67 | Filtering an already filtered list by a stricter condition equals filtering once by the stricter condition. |
| Scaling.Transform | ModelPerScats/data/data.py:28-30 | Values inside the fitted range map into [0, 1], with min to 0 and max to 1. Values below or above the range map below 0 or above 1, with no clamping. |
| Scaling.Inverse | TrafficData/TrafficFlowPredictor.py:129 | `inverse_transform` produces the raw value whose transform is the given scaled value. |
| Scaling.RoundTrip | TrafficData/TrafficFlowPredictor.py:127-130 | `inverse_transform(transform(v)) == v` for every real `v`, including a zero-width range. |
| Scaling.Monotone | TrafficData/TrafficFlowPredictor.py:119-121 | Scaling preserves strict order in both directions, also outside the fitted range. |
| Scaling.Fit | ModelPerScats/data/data.py:28 | Fitting a non-empty column records values that occur in it and bound every value in it. |
| Scaling.TransformAll | ModelPerScats/data/data.py:29-30 | Transforming a column keeps its length, and each entry inverts back to the raw value. |
| Scaling.FittedColumnInUnit | ModelPerScats/data/data.py:28-29 | Every value of the column the scaler was fitted on lands in [0, 1]. |
| Scaling.ForeignColumnMayLeaveUnit | ModelPerScats/data/data.py:30 | A test column scaled with the train column's fit can leave [0, 1]. Example: fit on [0, 10], then 20 maps to 2. |
| Scaling.LoadScalers | TrafficData/TrafficFlowPredictor.py:65-79 | With data files, the fitted scalers are used unchanged. Without them, the four default scalers are used. The result is always a valid bank. |
| Scaling.DefaultFlowRange | TrafficData/TrafficFlowPredictor.py:76 | The default flow scaler is valid and sends 0 and 800 vehicles to 0 and 1. |
| Scaling.DefaultLocationRange | TrafficData/TrafficFlowPredictor.py:77 | The default location scaler is valid and sends SCATS numbers 0 and 5000 to 0 and 1. |
| Scaling.DefaultDayRange | TrafficData/TrafficFlowPredictor.py:78 | The default weekday scaler is valid and sends 0 and 6 to 0 and 1. |
| Scaling.DefaultTimeRange | TrafficData/TrafficFlowPredictor.py:79 | The default minute scaler is valid and sends 0 and 1439 to 0 and 1. |
| Scaling.DefaultRoundTrip | TrafficData/TrafficFlowPredictor.py:70-79 | Under the default ranges, each of the four quantities round-trips exactly. |
| SeriesData.Window | ModelPerScats/data/data.py:34 | The row for source index `i` has `lags + 1` entries: `flow[i-lags..i-1]`, then `flow[i]` as the last entry. |
| SeriesData.Windows | ModelPerScats/data/data.py:33-35 | A column yields `max(0, len - lags)` rows. Row `k` is the window of source index `k + lags`, in chronological order. |
| SeriesData.SlidingWindows | ModelPerScats/data/data.py:33-35 | The appending `for` loop builds exactly the reference window table. |
| SeriesData.SplitColumns | ModelPerScats/data/data.py:48-55 | `X[k] ++ [y[k]] == rows[k]` for every row, and both columns have the table's length. |
| SeriesData.SplitJoin | ModelPerScats/data/data.py:48-49 | Splitting a re-joined table returns its feature and target columns. |
| SeriesData.ShuffleFrom | ModelPerScats/data/data.py:46 | Each remaining Fisher-Yates swap keeps the length and the multiset of rows. |
| SeriesData.Shuffle | ModelPerScats/data/data.py:46 | The shuffle of `train` is a permutation: same length, same multiset of rows. |
| SeriesData.Tabulate | ModelPerScats/data/data.py:32-55 | For scaled columns, `data` is the train windows followed by the test windows, in order. The test split is the test windows. The train split is the shuffled train windows. An empty window table is an error. |
| SeriesData.ProcessData | ModelPerScats/data/data.py:8-57 | Empty raw columns fail with `EmptyColumn`. Success holds exactly when both columns exceed `lags`. The flow scaler is fitted on the train column only. The train split is a permutation of the train windows. |
| Forecast.SlotIndex | TrafficData/TrafficFlowPredictor.py:141-144 | `time_index = floor((60*hour + minute) / 15)`. It lies in 0..95, and its slot contains the request's minute. |
| Forecast.RowsAt | TrafficData/TrafficFlowPredictor.py:135-136 | Selected rows are table rows whose column `lags` equals the value. Every such table row is selected. There are no more selected rows than table rows, so together with `RowsAtConcat` the result is the in-order subsequence of matches. |
| Forecast.RowsAtConcat | TrafficData/TrafficFlowPredictor.py:135-136 | Selecting from train-then-test rows gives the train part's matches before the test part's, so original order is kept. |
| Forecast.NewPredictor | TrafficData/TrafficFlowPredictor.py:29-45 | A new predictor has lag width 12, the given table and an empty memo. Its scalers are the fitted ones, unchanged, when the data files exist, and the default ranges when they do not. |
| Forecast.LookupLocation | TrafficData/TrafficFlowPredictor.py:132-138 | Returns the rows whose column `lags` equals the scaled location. A hit returns the cached value unchanged. The memo gains no key other than the location and keeps existing entries. The fallback list fails. |
| Forecast.LookupMemoised | TrafficData/TrafficFlowPredictor.py:134-138 | A second lookup of the same location returns the same result and changes nothing. |
| Forecast.DayBlock | TrafficData/TrafficFlowPredictor.py:150 | A day inside the data gives its block of at most 96 rows. A day past the data or day 0 gives nothing. A negative day counts back from the end. |
| Forecast.SettledDay | TrafficData/TrafficFlowPredictor.py:153-154 | The day the loop settles on, from the row count alone: a week multiple back, not below -7 from a non-negative start, with a non-empty block unless negative. Every day passed over was non-negative and empty. |
| Forecast.GapFill | TrafficData/TrafficFlowPredictor.py:152-155 | Stops on a non-empty block or a negative day. Steps back only in whole weeks, to no earlier than day -7. Every day skipped was non-negative and empty. |
| Forecast.GapFillLoop | TrafficData/TrafficFlowPredictor.py:153-155 | The `while` loop terminates, because the day drops by 7 while it is non-negative, and it ends on the state `GapFill` describes. |
| Forecast.GapFillWrapsAround | TrafficData/TrafficFlowPredictor.py:153-155 | With 200 rows, starting at day 13 ends at day -1 on rows 8..103, not on an empty block. |
| Forecast.GapFillUsesPreviousWeek | TrafficData/TrafficFlowPredictor.py:152-155 | An empty non-negative day whose block seven days earlier is non-empty uses that block. For days 0..6 the earlier day is non-positive, and its block is the wrapped slice from the end of the rows. |
| Forecast.ClampHorizon | TrafficData/TrafficFlowPredictor.py:160-165 | There are rows exactly when `steps > 0` and the slot is inside the block. Their count is `min(steps, len - slot)`, at most `steps`. Row `i` is `day_X[slot + i]`, in bounds. |
| Forecast.ClampHorizonScenarios | TrafficData/TrafficFlowPredictor.py:161-163 | On a full day, slot 0 with horizon 4 gives 4 rows. Slot 94 gives only rows 94..95. |
| Forecast.HistoricalWindow | TrafficData/TrafficFlowPredictor.py:150-167 | After gap-fill, the result is `None` exactly when the block is exhausted at the slot or `steps <= 0`. Otherwise it is the clamped rows from the slot. |
| Forecast.TimeseriesInputs | TrafficData/TrafficFlowPredictor.py:140-167 | A location with no rows raises "No Data exists" after being memoised. Otherwise the result is the historical window. The memo lookup is the only state change. |
| Forecast.DatetimeInputs | TrafficData/TrafficFlowPredictor.py:114-125 | Exactly `steps` rows of width 3. Weekday and location are the same in every row and invert to the request's values. The minute of row `t` inverts to the request's unrounded minute + 15t. A non-positive horizon fails. |
| Forecast.CalendarTimeIncreases | TrafficData/TrafficFlowPredictor.py:120 | The scaled minute strictly increases along the horizon. |
| Forecast.CalendarNoMidnightWrap | TrafficData/TrafficFlowPredictor.py:116-120 | At 23:50 with the default ranges, the second step's minute scales above 1. Minutes do not wrap at midnight. |
| Forecast.PredictFlows | TrafficData/TrafficFlowPredictor.py:127-130 | One flow per network output, each of which the flow scaler maps back to that output. |
| Forecast.PredictTrafficFlow | TrafficData/TrafficFlowPredictor.py:95-112 | No model gives exactly `400 * steps` and leaves the predictor unchanged. `"average"` uses the calendar rows and leaves the memo untouched. Other names use the historical rows: errors propagate, no rows gives 0, otherwise the sum of the inverse-scaled predictions. |
| Forecast.TruncatedHorizonNotPadded | TrafficData/TrafficFlowPredictor.py:161-165 | With a row-preserving network, a historical forecast sums exactly `min(steps, len(day_X) - time_index)` flows, one per row produced from the gap-filled block. A truncated horizon is not padded up to `steps`. |
| Forecast.TruncatedHorizonAtSlot94 | TrafficData/TrafficFlowPredictor.py:108-112 | A full day requested at slot 94 with horizon 4 predicts exactly two flows, for slots 94 and 95, and the forecast is their sum. |
| Incidents.GetActiveIncidents | data/traffic_incidents.py:61-67 | The stored list becomes exactly the incidents with `start + duration > now`, and that same list is returned. |
| Incidents.GetActiveIdempotent | data/traffic_incidents.py:61-67 | A second call at the same time returns the same list and state. |
| Incidents.GetActiveLater | data/traffic_incidents.py:61-67 | A call at a later time equals a single call at that time, so an incident removed earlier never reappears. |
| Incidents.GetActiveAfterAdd | data/traffic_incidents.py:63-70 | Expiring after an append gives the old list's survivors, then the new incident if it is still live. |
| Incidents.AddIncident | data/traffic_incidents.py:69-70 | Exactly one incident is appended at the end. The others are unchanged. |
| Incidents.RunningProduct | data/traffic_incidents.py:75-80 | Starting from 1.0 and multiplying each factor in turn, a factor of 0 zeroes the product for good, and factors that are all 1 leave it at 1.0. |
| Incidents.NoneHereKeepsNothing | data/traffic_incidents.py:77-78 | With no incident at the location, the `if` never fires, so no factor is multiplied in. |
| Incidents.RunningProductInUnit | data/traffic_incidents.py:75-80 | Factors in [0, 1] keep `multiplier *= f` in [0, 1]. |
| Incidents.HereProductInUnit | data/traffic_incidents.py:73-80 | Severities in [0, 1] give a location's factors in [0, 1], and so a product in [0, 1]. |
| Incidents.LocationProduct | data/traffic_incidents.py:75-80 | The multiplier before the floor. With no incident at the location it stays 1.0. With severities in [0, 1] it lies in [0, 1]. |
| Incidents.GetFlowMultiplier | data/traffic_incidents.py:72-82 | Expires incidents first. The result is at least 0.1. It is the product unless that is below 0.1. It is 1.0 with no active incident at the location. It is at most 1.0 when severities are in [0, 1]. |
| Incidents.ActiveProductFacts | data/traffic_incidents.py:74-82 | The unit bound and the no-incident case carry over from the stored list to the expired list. |
| Incidents.ClosureFloorsFlow | data/traffic_incidents.py:72-82 | A live incident of severity 1.0 at the location, such as a road closure, zeroes the product, so the multiplier is the 0.1 floor. |
| Incidents.MultiplierSeesOnlyLocation | data/traffic_incidents.py:74-82 | Two incident lists whose incidents at the location are the same, in the same order, give that location the same multiplier, whatever else they hold and wherever it sits. |
| Incidents.MultiplierIgnoresOtherLocationAnywhere | data/traffic_incidents.py:77-80 | Removing an incident at another location from any position in the list leaves the location's multiplier unchanged. |
| Incidents.MultiplierIgnoresOtherLocations | data/traffic_incidents.py:69-80 | Appending an incident at another location with `add_incident` leaves the location's multiplier unchanged. |

## Left out

- Loading model files (`get_model`, `custom_load_model`, the `models` memo) is file I/O and foreign library code. Whether a model exists is the `Option<Net>` parameter.
- CSV reading, `fillna`, and `process_data_series` / `process_data_datetime` are not part of this model. The series table and fitted scalers are parameters of `NewPredictor`.
- If `get_scalars` itself raises, the source leaves the scalers unset. This path is not modelled: the bank is always either fitted or default.
- The network is an arbitrary function. Its shape behaviour is assumed only where a lemma says so (`TruncatedHorizonNotPadded`, `TruncatedHorizonAtSlot94`).
- Floating point is not modelled. Scaling, sums and products are exact reals. The source matches locations by floating-point equality of scaled values; this is modelled as exact equality.
- `datetime` arithmetic is not modelled. Dates are (day, weekday, hour, minute) integers, and incident times and durations are whole minutes.
- `GetActiveIncidents` returns a snapshot value. In the source, `get_active_incidents` returns the stored list object itself (data/traffic_incidents.py:67), so a later `add_incident` also grows a list a caller still holds. Values have no aliasing.
- The `print` reports of the fallbacks (TrafficData/TrafficFlowPredictor.py:54, 58, 70, 81, 88, 91) are output only and are left out.
- `NewPredictor` requires every table row to have column 12 (`HasColumn(table, 12)`), because the trained series table has `lags + 1 = 13` columns. On shorter rows the source would raise `IndexError` at `self.series_data[i][self.lags]` (TrafficData/TrafficFlowPredictor.py:135). That failure is not modelled.
- `IncidentSimulator.__init__`, `_load_scats_locations` and `generate_random_incident` read a file or use randomness. `locations` is carried but never filled.
- The module-level simulator instance and the `IncidentType` display strings are left out.
- `np.random.shuffle`'s randomness is the `picks` parameter. Any valid sequence of Fisher-Yates choices is allowed.
- The tensor reshapes to `(n, width, 1)` are not modelled: a row stays a flat sequence.
- Web front-ends, map rendering, visualisation and model-file repair scripts are outside the core.

=== FILE: forecast.dfy ===
/** `TrafficFlowPredictor`: turns a request (location, date, horizon, model
    name) into the rows a model consumes and turns the model's output back
    into one flow figure. The only mutable state modelled, the per-location
    memo of series rows, is threaded through the functions explicitly. */
module Forecast {

  import opened Wrappers
  import opened PySeq
  import opened Scaling
  import opened SeriesData

  /** Samples per day: 24 hours of 15-minute slots. */
  const SlotsPerDay: int := 96
  /** Flow assumed per step when the requested model is unavailable. */
  const DefaultFlowPerStep: int := 400
  /** Lag width the models were trained with. */
  const TrainedLags: nat := 12
  /** The model name that selects the calendar-feature inputs. */
  const AverageModel: string := "average"

  /** The parts of a `datetime` the predictor reads. */
  datatype Date = Date(day: int, weekday: int, hour: int, minute: int)

  predicate ValidDate(d: Date)
  {
    1 <= d.day <= 31 && 0 <= d.weekday <= 6 && 0 <= d.hour <= 23 && 0 <= d.minute <= 59
  }

  /** `date.hour * 60 + date.minute`, not rounded. */
  function MinuteOfDay(d: Date): (m: int)
  {
    d.hour * 60 + d.minute
  }

  /** The 15-minute slot of the day that contains the date's minute. */
  function SlotIndex(d: Date): (slot: nat)
    requires ValidDate(d)
    ensures slot < SlotsPerDay
    ensures 15 * slot <= MinuteOfDay(d) < 15 * (slot + 1)
  {
    MinuteOfDay(d) / 15
  }

  datatype Error =
    | NoDataForLocation(location: int)  // the location has no rows in the series table
    | NoSamples                         // a scaler was asked to transform zero values
    | FallbackTableUnindexable          // the empty-list fallback table cannot be indexed by a list

  /** A trained network: rows in, one scaled flow per row out. */
  type Net = seq<Row> -> seq<real>

  /** The predictor's state. `series` is `None` when the data files are absent
      and the table is the plain empty list. `cache` maps a raw location to its rows. */
  datatype Predictor = Predictor(
    scalers: ScalerBank,
    lags: nat,
    series: Option<seq<Row>>,
    cache: map<int, seq<Row>>)

  /** Every row of a table has the column `col`. */
  predicate HasColumn(table: seq<Row>, col: nat)
  {
    forall k :: 0 <= k < |table| ==> |table[k]| > col
  }

  /** Whether a row's column `col` holds `v`; rows without that column never match. */
  function AtColumn(col: nat, v: real): Row -> bool
  {
    row => |row| > col && row[col] == v
  }

  /** The rows of `table` whose column `col` equals `v`, in their original order. */
  function RowsAt(table: seq<Row>, col: nat, v: real): (rows: seq<Row>)
    requires HasColumn(table, col)
    ensures HasColumn(rows, col)
    // a subsequence: no row is emitted more often than the table holds rows
    ensures |rows| <= |table|
    ensures forall k :: 0 <= k < |rows| ==> rows[k] in table && rows[k][col] == v
    ensures forall k :: 0 <= k < |table| && table[k][col] == v ==> table[k] in rows
  {
    var rows := Filter(table, AtColumn(col, v));
    assert forall k :: 0 <= k < |rows| ==> AtColumn(col, v)(rows[k]);
    rows
  }

  /** Selecting a location's rows from train-then-test rows keeps the train
      part's rows before the test part's. */
  lemma RowsAtConcat(a: seq<Row>, b: seq<Row>, col: nat, v: real)
    requires HasColumn(a, col) && HasColumn(b, col)
    ensures HasColumn(a + b, col)
    ensures RowsAt(a + b, col, v) == RowsAt(a, col, v) + RowsAt(b, col, v)
  {
    var ab := a + b;
    assert HasColumn(ab, col) by {
      forall k | 0 <= k < |ab| ensures |ab[k]| > col {
        if k < |a| { assert ab[k] == a[k]; } else { assert ab[k] == b[k - |a|]; }
      }
    }
    FilterConcat(a, b, AtColumn(col, v));
  }

  function ScaledLocation(b: ScalerBank, location: int): (v: real)
    requires BankValid(b)
  {
    Transform(b.location, location as real)
  }

  predicate TableFits(p: Predictor)
  {
    p.series.Some? ==> HasColumn(p.series.value, p.lags)
  }

  /** Every memoised entry is exactly the scan the lookup would perform. */
  predicate CacheConsistent(p: Predictor)
    requires BankValid(p.scalers) && TableFits(p)
  {
    forall loc :: loc in p.cache ==>
      p.series.Some? && p.cache[loc] == RowsAt(p.series.value, p.lags, ScaledLocation(p.scalers, loc))
  }

  predicate WellFormed(p: Predictor)
  {
    BankValid(p.scalers) && TableFits(p) && CacheConsistent(p)
  }

  /** `__init__`: scalers from the data files or the defaults, the series table
      (or the empty-list fallback), lag width 12 and an empty memo. */
  function NewPredictor(fitted: Option<ScalerBank>, table: Option<seq<Row>>): (p: Predictor)
    requires fitted.Some? ==> BankValid(fitted.value)
    requires table.Some? ==> HasColumn(table.value, TrainedLags)
    ensures WellFormed(p)
    ensures p.cache == map[] && p.lags == TrainedLags && p.series == table
    ensures fitted.Some? ==> p.scalers == fitted.value
    ensures fitted.None? ==> p.scalers == DefaultBank
  {
    Predictor(LoadScalers(fitted), TrainedLags, table, map[])
  }

  /** `lookup_location_data`: the rows whose column `lags` equals the scaled
      location, memoised per raw location. */
  function LookupLocation(p: Predictor, location: int): (r: (Result<seq<Row>, Error>, Predictor))
    requires WellFormed(p)
    ensures WellFormed(r.1)
    ensures r.1.scalers == p.scalers && r.1.lags == p.lags && r.1.series == p.series
    // the memo gains at most the requested key and keeps every existing entry
    ensures r.1.cache.Keys <= p.cache.Keys + {location}
    ensures forall loc :: loc in p.cache ==> loc in r.1.cache && r.1.cache[loc] == p.cache[loc]
    // a hit changes nothing
    ensures location in p.cache ==> r == (Ok(p.cache[location]), p)
    // the fallback empty list cannot be indexed
    ensures r.0.Err? <==> p.series.None?
    ensures r.0.Err? ==> r == (Err(FallbackTableUnindexable), p)
    ensures r.0.Ok? ==> location in r.1.cache && r.1.cache[location] == r.0.value
    // the rows returned are exactly the table's rows for that location
    ensures r.0.Ok? ==>
              forall row :: row in r.0.value <==>
                row in p.series.value && |row| > p.lags && row[p.lags] == ScaledLocation(p.scalers, location)
  {
    if location in p.cache then (Ok(p.cache[location]), p)
    else
      match p.series
      case None => (Err(FallbackTableUnindexable), p)
      case Some(table) =>
        var rows := RowsAt(table, p.lags, ScaledLocation(p.scalers, location));
        (Ok(rows), p.(cache := p.cache[location := rows]))
  }

  /** A second lookup of the same location returns the memoised rows and
      leaves the predictor as the first lookup left it. */
  lemma LookupMemoised(p: Predictor, location: int)
    requires WellFormed(p)
    ensures var first := LookupLocation(p, location);
            LookupLocation(first.1, location) == first
  {
  }

  /** `location_X[(day-1)*96:day*96]`, with Python's slice semantics. */
  function DayBlock(locX: seq<Row>, day: int): (block: seq<Row>)
    ensures |block| <= SlotsPerDay
    ensures |block| == 0 <==> DayIsEmpty(|locX|, day)
    // a calendar day inside the data is its block of `SlotsPerDay` rows, cut short at the end
    ensures day >= 1 && (day - 1) * SlotsPerDay < |locX| ==>
              block == locX[(day - 1) * SlotsPerDay .. Min(day * SlotsPerDay, |locX|)]
    ensures day >= 1 && (day - 1) * SlotsPerDay >= |locX| ==> block == []
    // day 0 stops at index 0 and so is empty
    ensures day == 0 ==> block == []
    // negative days count back from the end of the location's rows
    ensures day <= -1 && -(day - 1) * SlotsPerDay <= |locX| ==>
              block == locX[|locX| + (day - 1) * SlotsPerDay .. |locX| + day * SlotsPerDay]
  {
    PySlice(locX, (day - 1) * SlotsPerDay, day * SlotsPerDay)
  }

  /** Whether day `day`'s block is empty in a location with `n` rows; this
      depends on the row count alone. */
  predicate DayIsEmpty(n: nat, day: int)
  {
    SliceBound(day * SlotsPerDay, n) <= SliceBound((day - 1) * SlotsPerDay, n)
  }

  /** The day the gap-fill loop settles on, for a location with `n` rows. */
  function SettledDay(n: nat, day: int): (d: int)
    ensures d <= day && (day - d) % 7 == 0
    ensures day >= 0 ==> d >= -7
    ensures !DayIsEmpty(n, d) || d < 0
    ensures forall e :: d < e <= day && (day - e) % 7 == 0 ==> e >= 0 && DayIsEmpty(n, e)
    decreases if day >= 0 then day + 1 else 0
  {
    if DayIsEmpty(n, day) && day >= 0 then SettledDay(n, day - 7) else day
  }

  /** The gap-fill policy: while the block is empty and the day counter is
      non-negative, step back seven days. Returns the final day and block. */
  function GapFill(locX: seq<Row>, day: int): (r: (int, seq<Row>))
    ensures r.1 == DayBlock(locX, r.0)
    // it stops on a non-empty block or once the counter is negative
    ensures |r.1| > 0 || r.0 < 0
    // it only steps back, in whole weeks, and not past the first negative day
    ensures r.0 <= day && (day - r.0) % 7 == 0
    ensures day >= 0 ==> r.0 >= -7
    // every day it stepped over was non-negative with an empty block
    ensures forall d :: r.0 < d <= day && (day - d) % 7 == 0 ==> d >= 0 && DayBlock(locX, d) == []
  {
    var d := SettledDay(|locX|, day);
    (d, DayBlock(locX, d))
  }

  /** The `while len(day_X) == 0 and day >= 0` loop as written; it terminates
      because the day strictly decreases while it is non-negative. */
  method GapFillLoop(locX: seq<Row>, start: int) returns (day: int, dayX: seq<Row>)
    ensures (day, dayX) == GapFill(locX, start)
  {
    day := start;
    dayX := DayBlock(locX, day);
    while |dayX| == 0 && day >= 0
      invariant dayX == DayBlock(locX, day)
      invariant SettledDay(|locX|, day) == SettledDay(|locX|, start)
      decreases if day >= 0 then day + 1 else 0
    {
      day := day - 7;
      dayX := DayBlock(locX, day);
    }
  }

  /** Stepping back can wrap around: for a location with 200 rows, day 13 and
      day 6 are empty, so the loop reaches day -1, whose slice `[-192:-96]`
      picks rows 8..103 rather than nothing. */
  lemma GapFillWrapsAround(locX: seq<Row>)
    requires |locX| == 200
    ensures GapFill(locX, 13) == (-1, locX[8..104])
  {
    assert DayBlock(locX, 13) == [];
    assert DayBlock(locX, 6) == [];
    assert DayBlock(locX, -1) == locX[8..104];
  }

  /** Data seven days earlier fills an empty day. */
  lemma GapFillUsesPreviousWeek(locX: seq<Row>, day: int)
    requires 0 <= day && DayBlock(locX, day) == [] && DayBlock(locX, day - 7) != []
    ensures GapFill(locX, day) == (day - 7, DayBlock(locX, day - 7))
  {
  }

  /** `available_steps = min(steps, len(day_X) - time_index)` and the rows
      `day_X[time_index + i]`; no rows at all when that count is not positive. */
  function ClampHorizon(dayX: seq<Row>, slot: nat, steps: int): (r: Option<seq<Row>>)
    ensures r.Some? <==> steps > 0 && slot < |dayX|
    ensures r.Some? ==> |r.value| == Min(steps, |dayX| - slot)
    ensures r.Some? ==> 0 < |r.value| <= steps && slot + |r.value| <= |dayX|
    ensures r.Some? ==> forall i :: 0 <= i < |r.value| ==> r.value[i] == dayX[slot + i]
  {
    var available := Min(steps, |dayX| - slot);
    if available <= 0 then None else Some(dayX[slot .. slot + available])
  }

  /** A full day at slot 0 gives the whole horizon; slot 94 gives only two rows. */
  lemma ClampHorizonScenarios(dayX: seq<Row>)
    requires |dayX| == SlotsPerDay
    ensures ClampHorizon(dayX, 0, 4) == Some(dayX[0..4])
    ensures ClampHorizon(dayX, 94, 4) == Some(dayX[94..96])
  {
  }

  /** The part of `get_timeseries_inputs` after the lookup: the gap-filled
      day block, then the clamped horizon starting at the request's slot. */
  function HistoricalWindow(locX: seq<Row>, date: Date, steps: int): (r: Option<seq<Row>>)
    requires ValidDate(date)
    ensures var block := GapFill(locX, date.day).1;
            && (r.None? <==> |block| <= SlotIndex(date) || steps <= 0)
            && (r.Some? ==>
                  && 0 < |r.value| <= steps
                  && |r.value| == Min(steps, |block| - SlotIndex(date))
                  && forall i :: 0 <= i < |r.value| ==> r.value[i] == block[SlotIndex(date) + i])
  {
    var (_, dayX) := GapFill(locX, date.day);
    if |dayX| == 0 then None
    else ClampHorizon(dayX, SlotIndex(date), steps)
  }

  /** `get_timeseries_inputs`: the historical-window rows for a request, or
      `None` when the day block or the horizon is exhausted. */
  function TimeseriesInputs(p: Predictor, location: int, date: Date, steps: int)
    : (r: (Result<Option<seq<Row>>, Error>, Predictor))
    requires WellFormed(p) && ValidDate(date)
    ensures WellFormed(r.1)
    // the memo lookup is the only state change
    ensures r.1 == LookupLocation(p, location).1
    ensures LookupLocation(p, location).0.Err? ==> r.0 == Err(LookupLocation(p, location).0.error)
    // a location without rows is an error, not an empty result
    ensures r.0 == Err(NoDataForLocation(location)) <==> LookupLocation(p, location).0 == Ok([])
    ensures r.0.Ok? ==>
              var locX := LookupLocation(p, location).0.value;
              |locX| > 0 && r.0.value == HistoricalWindow(locX, date, steps)
  {
    var looked := LookupLocation(p, location);
    match looked.0
    case Err(e) => (Err(e), looked.1)
    case Ok(locX) =>
      if |locX| == 0 then (Err(NoDataForLocation(location)), looked.1)
      else (Ok(HistoricalWindow(locX, date, steps)), looked.1)
  }

  /** `get_datetime_inputs`: one (weekday, minute, location) triple per step,
      all scaled; the minute advances by 15 per step without wrapping at midnight. */
  function DatetimeInputs(b: ScalerBank, location: int, date: Date, steps: int): (r: Result<seq<Row>, Error>)
    requires BankValid(b) && ValidDate(date)
    // scaling zero samples fails, so a non-positive horizon is an error
    ensures r.Err? <==> steps <= 0
    ensures r.Err? ==> r.error == NoSamples
    ensures r.Ok? ==> |r.value| == steps
    ensures r.Ok? ==> forall t :: 0 <= t < |r.value| ==> |r.value[t]| == 3
    // weekday and location do not change along the horizon
    ensures r.Ok? ==>
              forall t :: 0 <= t < |r.value| ==> r.value[t][0] == r.value[0][0] && r.value[t][2] == r.value[0][2]
    ensures r.Ok? ==>
              Inverse(b.day, r.value[0][0]) == date.weekday as real
              && Inverse(b.location, r.value[0][2]) == location as real
    // the minute feature of step t is the request's minute plus 15 t
    ensures r.Ok? ==>
              forall t :: 0 <= t < |r.value| ==>
                Inverse(b.time, r.value[t][1]) == (MinuteOfDay(date) + 15 * t) as real
  {
    if steps <= 0 then Err(NoSamples)
    else
      var days := TransformAll(b.day, seq(steps, _ => date.weekday as real));
      var times := TransformAll(b.time, seq(steps, t => (MinuteOfDay(date) + 15 * t) as real));
      var scats := TransformAll(b.location, seq(steps, _ => location as real));
      Ok(seq(steps, t requires 0 <= t < steps => [days[t], times[t], scats[t]]))
  }

  /** The minute feature strictly increases along the horizon. */
  lemma {:induction false} CalendarTimeIncreases(b: ScalerBank, location: int, date: Date, steps: int, t: int, u: int)
    requires BankValid(b) && ValidDate(date)
    requires 0 <= t < u < steps
    ensures DatetimeInputs(b, location, date, steps).Ok?
    ensures var rows := DatetimeInputs(b, location, date, steps).value;
            rows[t][1] < rows[u][1]
  {
    var rows := DatetimeInputs(b, location, date, steps).value;
    var mt := (MinuteOfDay(date) + 15 * t) as real;
    var mu := (MinuteOfDay(date) + 15 * u) as real;
    assert Inverse(b.time, rows[t][1]) == mt;
    assert Inverse(b.time, rows[u][1]) == mu;
    Monotone(b.time, mt, mu);
  }

  /** With the default ranges a request at 23:50 scales its second step
      (minute 1445) above 1: there is no wrap past midnight. */
  lemma CalendarNoMidnightWrap(b: ScalerBank, location: int, date: Date)
    requires b == DefaultBank
    requires ValidDate(date) && date.hour == 23 && date.minute == 50
    ensures var r := DatetimeInputs(b, location, date, 2);
            r.Ok? && r.value[1][1] > 1.0
  {
    var r := DatetimeInputs(b, location, date, 2);
    var u := r.value[1][1];
    assert Inverse(b.time, u) == 1445.0;
    assert Transform(b.time, Inverse(b.time, u)) == u;
  }

  /** `predict_datetime` / `predict_series`: the model's scaled outputs mapped
      back to flows with the flow scaler's inverse. */
  function PredictFlows(flow: Scaler, net: Net, xs: seq<Row>): (ys: seq<real>)
    requires Valid(flow)
    ensures |ys| == |net(xs)|
    ensures forall i :: 0 <= i < |ys| ==> Transform(flow, ys[i]) == net(xs)[i]
  {
    var out := net(xs);
    seq(|out|, i requires 0 <= i < |out| => Inverse(flow, out[i]))
  }

  /** `predict_traffic_flow`: the default when no model is available, otherwise
      the summed flows predicted from the inputs the model name selects, or 0
      when no inputs could be built. */
  function PredictTrafficFlow(p: Predictor, location: int, date: Date, steps: int,
                              modelName: string, model: Option<Net>)
    : (r: (Result<real, Error>, Predictor))
    requires WellFormed(p) && ValidDate(date)
    ensures WellFormed(r.1)
    // no model: exactly 400 per step, and no inputs are built
    ensures model.None? ==> r == (Ok((DefaultFlowPerStep * steps) as real), p)
    // "average": calendar inputs, the memo untouched
    ensures model.Some? && modelName == AverageModel ==>
              && r.1 == p
              && (r.0.Err? <==> steps <= 0)
              && (r.0.Ok? ==>
                    r.0.value == Sum(PredictFlows(p.scalers.flow, model.value,
                                                  DatetimeInputs(p.scalers, location, date, steps).value)))
    // any other name: historical inputs
    ensures model.Some? && modelName != AverageModel ==>
              && r.1 == LookupLocation(p, location).1
              && match TimeseriesInputs(p, location, date, steps).0
                 case Err(e) => r.0 == Err(e)
                 case Ok(None) => r.0 == Ok(0.0)
                 case Ok(Some(xs)) => r.0 == Ok(Sum(PredictFlows(p.scalers.flow, model.value, xs)))
  {
    match model
    case None => (Ok((DefaultFlowPerStep * steps) as real), p)
    case Some(net) =>
      if modelName == AverageModel then
        match DatetimeInputs(p.scalers, location, date, steps)
        case Err(e) => (Err(e), p)
        case Ok(xs) => (Ok(Sum(PredictFlows(p.scalers.flow, net, xs))), p)
      else
        var (inputs, p') := TimeseriesInputs(p, location, date, steps);
        match inputs
        case Err(e) => (Err(e), p')
        case Ok(None) => (Ok(0.0), p')
        case Ok(Some(xs)) => (Ok(Sum(PredictFlows(p.scalers.flow, net, xs))), p')
  }

  /** A truncated horizon is summed as it is: with a network that returns one
      value per row, the historical forecast adds exactly as many flows as
      rows were left in the gap-filled day from the request's slot on. */
  lemma TruncatedHorizonNotPadded(p: Predictor, location: int, date: Date, steps: int, net: Net)
    requires WellFormed(p) && ValidDate(date)
    requires forall xs :: |net(xs)| == |xs|
    ensures var inputs := TimeseriesInputs(p, location, date, steps).0;
            inputs.Ok? && inputs.value.Some? ==>
              var locX := LookupLocation(p, location).0.value;
              var xs := inputs.value.value;
              && |PredictFlows(p.scalers.flow, net, xs)| == |xs|
              && |xs| == Min(steps, |GapFill(locX, date.day).1| - SlotIndex(date))
  {
    var inputs := TimeseriesInputs(p, location, date, steps).0;
    if inputs.Ok? && inputs.value.Some? {
      var locX := LookupLocation(p, location).0.value;
      var window := HistoricalWindow(locX, date, steps);
      assert inputs.value == window;
      assert |PredictFlows(p.scalers.flow, net, window.value)| == |window.value|;
    }
  }

  /** A full day requested at slot 94 with a horizon of 4 sums exactly the two
      flows predicted for slots 94 and 95. */
  lemma TruncatedHorizonAtSlot94(p: Predictor, location: int, date: Date, modelName: string, net: Net)
    requires WellFormed(p) && ValidDate(date) && SlotIndex(date) == 94 && modelName != AverageModel
    requires forall xs :: |net(xs)| == |xs|
    ensures var looked := LookupLocation(p, location).0;
            looked.Ok? && |GapFill(looked.value, date.day).1| == SlotsPerDay ==>
              var block := GapFill(looked.value, date.day).1;
              var flows := PredictFlows(p.scalers.flow, net, block[94..96]);
              && |flows| == 2
              && PredictTrafficFlow(p, location, date, 4, modelName, Some(net)).0 == Ok(Sum(flows))
  {
    var looked := LookupLocation(p, location).0;
    if looked.Ok? && |GapFill(looked.value, date.day).1| == SlotsPerDay {
      var block := GapFill(looked.value, date.day).1;
      assert ClampHorizon(block, 94, 4) == Some(block[94..96]);
      assert HistoricalWindow(looked.value, date, 4) == Some(block[94..96]);
    }
  }
}

=== FILE: incidents.dfy ===
/** `IncidentSimulator`: a list of active incidents that expire with time, and
    the flow multiplier they impose on one location. Times are whole minutes. */
module Incidents {

  import opened PySeq

  datatype IncidentType = Accident | RoadWork | Closure

  /** `TrafficIncident`: `severity` is meant to lie in [0, 1]. */
  datatype Incident = Incident(
    scats: int,
    kind: IncidentType,
    start: int,
    duration: int,
    severity: real,
    description: string)

  /** The simulator's state: known locations and the active incident list. */
  datatype Simulator = Simulator(locations: seq<int>, active: seq<Incident>)

  /** The flow never drops below this share of normal. */
  const FlowFloor: real := 0.1

  /** An incident is still active at `now` while its end lies after `now`. */
  function LiveAt(now: int): Incident -> bool
  {
    (inc: Incident) => inc.start + inc.duration > now
  }

  /** `get_active_incidents`: drops expired incidents from the stored list and
      returns the list that is now stored. */
  function GetActiveIncidents(sim: Simulator, now: int): (r: (seq<Incident>, Simulator))
    ensures r.1.active == r.0 && r.1.locations == sim.locations
    ensures |r.0| <= |sim.active|
    ensures forall k :: 0 <= k < |r.0| ==> r.0[k] in sim.active && r.0[k].start + r.0[k].duration > now
    ensures forall k :: 0 <= k < |sim.active| && sim.active[k].start + sim.active[k].duration > now ==>
              sim.active[k] in r.0
  {
    var kept := Filter(sim.active, LiveAt(now));
    assert forall k :: 0 <= k < |kept| ==> LiveAt(now)(kept[k]);
    (kept, sim.(active := kept))
  }

  /** Asking twice at the same time removes nothing more. */
  lemma GetActiveIdempotent(sim: Simulator, now: int)
    ensures var first := GetActiveIncidents(sim, now);
            GetActiveIncidents(first.1, now) == first
  {
    FilterNarrow(sim.active, LiveAt(now), LiveAt(now));
  }

  /** A later call sees exactly what a single call at the later time would:
      an incident removed earlier never comes back. */
  lemma GetActiveLater(sim: Simulator, t1: int, t2: int)
    requires t1 <= t2
    ensures GetActiveIncidents(GetActiveIncidents(sim, t1).1, t2) == GetActiveIncidents(sim, t2)
    ensures forall k :: 0 <= k < |GetActiveIncidents(GetActiveIncidents(sim, t1).1, t2).0| ==>
              GetActiveIncidents(GetActiveIncidents(sim, t1).1, t2).0[k] in GetActiveIncidents(sim, t1).0
  {
    FilterNarrow(sim.active, LiveAt(t1), LiveAt(t2));
  }

  /** Expiry keeps the relative order: filtering the list after an appended
      incident is filtering the old list, then the new incident. */
  lemma GetActiveAfterAdd(sim: Simulator, inc: Incident, now: int)
    ensures GetActiveIncidents(AddIncident(sim, inc), now).0
            == GetActiveIncidents(sim, now).0 + (if inc.start + inc.duration > now then [inc] else [])
  {
    FilterConcat(sim.active, [inc], LiveAt(now));
    assert Filter([inc], LiveAt(now)) == Filter([], LiveAt(now)) + (if LiveAt(now)(inc) then [inc] else []);
  }

  /** `add_incident`: appends one incident and leaves the rest alone. */
  function AddIncident(sim: Simulator, inc: Incident): (r: Simulator)
    ensures r.locations == sim.locations
    ensures |r.active| == |sim.active| + 1
    ensures r.active[..|sim.active|] == sim.active && r.active[|sim.active|] == inc
  {
    sim.(active := sim.active + [inc])
  }

  function AtLocation(scats: int): Incident -> bool
  {
    (inc: Incident) => inc.scats == scats
  }

  /** `1.0 - severity` for each incident, in order. */
  function Reductions(xs: seq<Incident>): (fs: seq<real>)
    ensures |fs| == |xs|
    ensures SeveritiesInUnit(xs) ==> forall k :: 0 <= k < |fs| ==> 0.0 <= fs[k] <= 1.0
  {
    seq(|xs|, k requires 0 <= k < |xs| => 1.0 - xs[k].severity)
  }

  predicate HasFactor(fs: seq<real>, f: real)
  {
    exists k :: 0 <= k < |fs| && fs[k] == f
  }

  predicate AllFactors(fs: seq<real>, f: real)
  {
    forall k :: 0 <= k < |fs| ==> fs[k] == f
  }

  /** `multiplier *= f` for each factor in order, starting from 1.0. */
  function RunningProduct(fs: seq<real>): (m: real)
    // a factor of 0 (an incident of severity 1.0) zeroes the product for good
    ensures HasFactor(fs, 0.0) ==> m == 0.0
    // factors of 1 (incidents of severity 0.0) leave the multiplier at 1
    ensures AllFactors(fs, 1.0) ==> m == 1.0
  {
    if |fs| == 0 then 1.0
    else
      var front := fs[..|fs| - 1];
      var last := fs[|fs| - 1];
      assert forall k :: 0 <= k < |front| ==> front[k] == fs[k];
      RunningProduct(front) * last
  }

  predicate SeveritiesInUnit(xs: seq<Incident>)
  {
    forall k :: 0 <= k < |xs| ==> 0.0 <= xs[k].severity <= 1.0
  }

  lemma MulNonNegative(a: real, b: real)
    requires 0.0 <= a && 0.0 <= b
    ensures 0.0 <= a * b
  {
  }

  lemma MulAtMostOne(a: real, b: real)
    requires 0.0 <= a <= 1.0 && 0.0 <= b <= 1.0
    ensures 0.0 <= a * b <= 1.0
  {
    MulNonNegative(a, b);
    MulNonNegative(1.0 - a, b);
    assert (1.0 - a) * b == b - a * b;
  }

  /** Factors in [0, 1] keep the running product in [0, 1]. */
  lemma {:induction false} RunningProductInUnit(fs: seq<real>)
    requires forall k :: 0 <= k < |fs| ==> 0.0 <= fs[k] <= 1.0
    ensures 0.0 <= RunningProduct(fs) <= 1.0
    decreases |fs|
  {
    if |fs| > 0 {
      RunningProductInUnit(fs[..|fs| - 1]);
      MulAtMostOne(RunningProduct(fs[..|fs| - 1]), fs[|fs| - 1]);
    }
  }

  /** With no incident at the location, the loop multiplies by nothing. */
  lemma NoneHereKeepsNothing(xs: seq<Incident>, scats: int)
    ensures (forall k :: 0 <= k < |xs| ==> xs[k].scats != scats) ==> Filter(xs, AtLocation(scats)) == []
  {
    if forall k :: 0 <= k < |xs| ==> xs[k].scats != scats {
      FilterKeepsNothing(xs, AtLocation(scats));
    }
  }

  /** Severities in [0, 1] give factors in [0, 1] at every location. */
  lemma HereProductInUnit(xs: seq<Incident>, scats: int)
    ensures SeveritiesInUnit(xs) ==> 0.0 <= RunningProduct(Reductions(Filter(xs, AtLocation(scats)))) <= 1.0
  {
    if SeveritiesInUnit(xs) {
      var here := Filter(xs, AtLocation(scats));
      assert SeveritiesInUnit(here) by {
        forall k | 0 <= k < |here| ensures 0.0 <= here[k].severity <= 1.0 {
          assert here[k] in xs;
        }
      }
      RunningProductInUnit(Reductions(here));
    }
  }

  /** The loop of `get_flow_multiplier` before the floor: the incidents at the
      location, in list order, each scaling the multiplier by `1 - severity`. */
  function LocationProduct(xs: seq<Incident>, scats: int): (m: real)
    // no incident at the location: the multiplier stays 1.0
    ensures (forall k :: 0 <= k < |xs| ==> xs[k].scats != scats) ==> m == 1.0
    // severities in [0, 1] keep it in [0, 1]
    ensures SeveritiesInUnit(xs) ==> 0.0 <= m <= 1.0
  {
    NoneHereKeepsNothing(xs, scats);
    HereProductInUnit(xs, scats);
    RunningProduct(Reductions(Filter(xs, AtLocation(scats))))
  }

  /** `get_flow_multiplier`: expires incidents, then the product of
      `1 - severity` over the active incidents at the location, floored at 0.1. */
  function GetFlowMultiplier(sim: Simulator, scats: int, now: int): (r: (real, Simulator))
    ensures r.1 == GetActiveIncidents(sim, now).1
    ensures r.0 >= FlowFloor
    // the floor only applies when the product falls below it
    ensures r.0 == FlowFloor || r.0 == LocationProduct(GetActiveIncidents(sim, now).0, scats)
    ensures LocationProduct(GetActiveIncidents(sim, now).0, scats) >= FlowFloor ==>
              r.0 == LocationProduct(GetActiveIncidents(sim, now).0, scats)
    // no active incident at the location: normal flow
    ensures (forall k :: 0 <= k < |sim.active| && sim.active[k].start + sim.active[k].duration > now ==>
               sim.active[k].scats != scats) ==> r.0 == 1.0
    // meaningful severities keep the multiplier within [0.1, 1]
    ensures SeveritiesInUnit(sim.active) ==> r.0 <= 1.0
  {
    var (active, sim') := GetActiveIncidents(sim, now);
    var m := LocationProduct(active, scats);
    ActiveProductFacts(sim, scats, now);
    (if m >= FlowFloor then m else FlowFloor, sim')
  }

  /** What the active list's product inherits from the whole list. */
  lemma ActiveProductFacts(sim: Simulator, scats: int, now: int)
    ensures var active := GetActiveIncidents(sim, now).0;
            (forall k :: 0 <= k < |active| ==> active[k].scats != scats) ==> LocationProduct(active, scats) == 1.0
    ensures SeveritiesInUnit(sim.active) ==> LocationProduct(GetActiveIncidents(sim, now).0, scats) <= 1.0
  {
    var active := GetActiveIncidents(sim, now).0;
    if SeveritiesInUnit(sim.active) {
      assert SeveritiesInUnit(active) by {
        forall k | 0 <= k < |active| ensures 0.0 <= active[k].severity <= 1.0 {
          assert active[k] in sim.active;
        }
      }
    }
  }

  /** A live incident of severity 1.0 at the location (a road closure)
      drives the product to 0, so the multiplier is the 10% floor. */
  lemma ClosureFloorsFlow(sim: Simulator, scats: int, now: int, k: nat)
    requires k < |sim.active| && sim.active[k].scats == scats && sim.active[k].severity == 1.0
    requires sim.active[k].start + sim.active[k].duration > now
    ensures GetFlowMultiplier(sim, scats, now).0 == FlowFloor
  {
    var inc := sim.active[k];
    var active := GetActiveIncidents(sim, now).0;
    assert inc in active;
    var j :| 0 <= j < |active| && active[j] == inc;
    var here := Filter(active, AtLocation(scats));
    assert AtLocation(scats)(active[j]);
    assert inc in here;
    var i :| 0 <= i < |here| && here[i] == inc;
    var fs := Reductions(here);
    assert fs[i] == 0.0;
    assert HasFactor(fs, 0.0);
    assert LocationProduct(active, scats) == 0.0;
  }

  /** A location's multiplier depends only on the incidents at that
      location, in their order: any two incident lists that agree there give
      the same multiplier, whatever else they hold and wherever it sits. */
  lemma MultiplierSeesOnlyLocation(s1: Simulator, s2: Simulator, scats: int, now: int)
    requires Filter(s1.active, AtLocation(scats)) == Filter(s2.active, AtLocation(scats))
    ensures GetFlowMultiplier(s1, scats, now).0 == GetFlowMultiplier(s2, scats, now).0
  {
    FilterCommute(s1.active, LiveAt(now), AtLocation(scats));
    FilterCommute(s2.active, LiveAt(now), AtLocation(scats));
    assert LocationProduct(GetActiveIncidents(s1, now).0, scats) == LocationProduct(GetActiveIncidents(s2, now).0, scats);
  }

  /** An incident elsewhere, at any position in the list, does not change a
      location's multiplier. */
  lemma MultiplierIgnoresOtherLocationAnywhere(locations: seq<int>, xs: seq<Incident>, other: Incident,
                                               ys: seq<Incident>, scats: int, now: int)
    requires other.scats != scats
    ensures GetFlowMultiplier(Simulator(locations, xs + [other] + ys), scats, now).0
         == GetFlowMultiplier(Simulator(locations, xs + ys), scats, now).0
  {
    FilterSkipsRejected(xs, other, ys, AtLocation(scats));
    MultiplierSeesOnlyLocation(Simulator(locations, xs + [other] + ys), Simulator(locations, xs + ys), scats, now);
  }

  /** Incidents elsewhere do not change a location's multiplier: the case of
      an incident appended by `add_incident`. */
  lemma MultiplierIgnoresOtherLocations(sim: Simulator, inc: Incident, scats: int, now: int)
    requires inc.scats != scats
    ensures GetFlowMultiplier(AddIncident(sim, inc), scats, now).0 == GetFlowMultiplier(sim, scats, now).0
  {
    MultiplierIgnoresOtherLocationAnywhere(sim.locations, sim.active, inc, [], scats, now);
    assert sim.active + [inc] + [] == AddIncident(sim, inc).active;
    assert sim.active + [] == sim.active;
  }
}

=== FILE: pyseq.dfy ===
/** Python sequence semantics that the forecaster and the incident simulator
    rely on: slicing with possibly negative bounds, summation, `min` and
    order-keeping list comprehensions (`Filter`). */
module PySeq {

  /** Where one bound of `s[a:b]` lands in a sequence of length `n`: a negative
      bound counts from the end, and the outcome is clamped into `0..n`. */
  function SliceBound(i: int, n: nat): (r: nat)
    ensures r <= n
  {
    if i < 0 then (if i + n < 0 then 0 else i + n)
    else if i > n then n else i
  }

  /** Python's `s[a:b]` for a step of 1. */
  function PySlice<T>(s: seq<T>, a: int, b: int): (r: seq<T>)
    ensures |r| <= |s|
    // length is the distance between the normalised bounds, or zero
    ensures |r| == if SliceBound(a, |s|) < SliceBound(b, |s|)
                   then SliceBound(b, |s|) - SliceBound(a, |s|) else 0
    // never longer than the requested width
    ensures a <= b ==> |r| <= b - a
    // elements are taken contiguously from the normalised start
    ensures forall k :: 0 <= k < |r| ==>
              SliceBound(a, |s|) + k < |s| && r[k] == s[SliceBound(a, |s|) + k]
    // in-range non-negative bounds behave as an ordinary slice
    ensures 0 <= a <= b <= |s| ==> r == s[a..b]
    // negative bounds wrap around from the end instead of yielding nothing
    ensures -|s| <= a <= b < 0 ==> r == s[a + |s| .. b + |s|]
    // a stop of 0 (or at or before the start) yields nothing
    ensures b == 0 || b <= -|s| ==> r == []
  {
    var lo := SliceBound(a, |s|);
    var hi := SliceBound(b, |s|);
    if lo < hi then s[lo..hi] else []
  }

  /** `sum(xs)` over exact reals, accumulated left to right. */
  function Sum(xs: seq<real>): (r: real)
    // non-negative flows add up to a non-negative total
    ensures (forall k :: 0 <= k < |xs| ==> xs[k] >= 0.0) ==> r >= 0.0
  {
    if |xs| == 0 then 0.0 else Sum(xs[..|xs| - 1]) + xs[|xs| - 1]
  }

  /** Summing a concatenation adds the sums of its parts, so the total does
      not depend on how the values are grouped. */
  lemma {:induction false} SumConcat(a: seq<real>, b: seq<real>)
    ensures Sum(a + b) == Sum(a) + Sum(b)
    decreases |b|
  {
    if |b| == 0 {
      assert a + b == a;
    } else {
      var front := b[..|b| - 1];
      assert (a + b)[..|a + b| - 1] == a + front;
      SumConcat(a, front);
    }
  }

  function Min(a: int, b: int): (m: int)
  {
    if a <= b then a else b
  }

  /** `[x for x in xs if keep(x)]`: the kept elements in their original order. */
  function Filter<T>(xs: seq<T>, keep: T -> bool): (r: seq<T>)
    ensures |r| <= |xs|
    // only kept elements of `xs` appear
    ensures forall k :: 0 <= k < |r| ==> r[k] in xs && keep(r[k])
    // and every kept element of `xs` appears
    ensures forall k :: 0 <= k < |xs| && keep(xs[k]) ==> xs[k] in r
  {
    if |xs| == 0 then []
    else
      var front := xs[..|xs| - 1];
      var last := xs[|xs| - 1];
      var rest := Filter(front, keep);
      var r := rest + (if keep(last) then [last] else []);
      assert forall k :: 0 <= k < |r| ==> r[k] in xs && keep(r[k]) by {
        forall k | 0 <= k < |r| ensures r[k] in xs && keep(r[k]) {
          if k < |rest| { assert r[k] == rest[k]; assert rest[k] in front; }
        }
      }
      assert forall k :: 0 <= k < |xs| && keep(xs[k]) ==> xs[k] in r by {
        forall k | 0 <= k < |xs| && keep(xs[k]) ensures xs[k] in r {
          if k < |front| { assert xs[k] == front[k]; assert front[k] in rest; }
          else { assert r[|r| - 1] == last; }
        }
      }
      r
  }

  /** Nothing is kept when no element qualifies. */
  lemma {:induction false} FilterKeepsNothing<T>(xs: seq<T>, keep: T -> bool)
    requires forall k :: 0 <= k < |xs| ==> !keep(xs[k])
    ensures Filter(xs, keep) == []
    decreases |xs|
  {
    if |xs| > 0 {
      FilterKeepsNothing(xs[..|xs| - 1], keep);
    }
  }

  /** Filtering distributes over concatenation, so relative order is kept. */
  lemma {:induction false} FilterConcat<T>(a: seq<T>, b: seq<T>, keep: T -> bool)
    ensures Filter(a + b, keep) == Filter(a, keep) + Filter(b, keep)
    decreases |b|
  {
    var ab := a + b;
    if |b| == 0 {
      assert ab == a;
    } else {
      var front := b[..|b| - 1];
      var last := b[|b| - 1];
      var tail := if keep(last) then [last] else [];
      assert ab[..|ab| - 1] == a + front;
      assert ab[|ab| - 1] == last;
      assert Filter(ab, keep) == Filter(a + front, keep) + tail;
      FilterConcat(a, front, keep);
      assert Filter(a + front, keep) + tail == Filter(a, keep) + (Filter(front, keep) + tail);
    }
  }

  /** Filtering again with a condition at least as strict as the first one is
      the same as filtering once with the stricter one. */
  lemma {:induction false} FilterNarrow<T>(xs: seq<T>, keep: T -> bool, stricter: T -> bool)
    requires forall x :: stricter(x) ==> keep(x)
    ensures Filter(Filter(xs, keep), stricter) == Filter(xs, stricter)
    decreases |xs|
  {
    if |xs| > 0 {
      var front := xs[..|xs| - 1];
      var last := xs[|xs| - 1];
      FilterNarrow(front, keep, stricter);
      var once := Filter(front, keep);
      if keep(last) {
        FilterConcat(once, [last], stricter);
        assert Filter([last], stricter) == Filter([], stricter) + (if stricter(last) then [last] else []);
      } else {
        assert Filter(xs, keep) == once;
      }
    }
  }
  /** A rejected element contributes nothing, wherever it sits. */
  lemma FilterSkipsRejected<T>(xs: seq<T>, x: T, ys: seq<T>, keep: T -> bool)
    requires !keep(x)
    ensures Filter(xs + [x] + ys, keep) == Filter(xs + ys, keep)
  {
    FilterConcat(xs + [x], ys, keep);
    FilterConcat(xs, [x], keep);
    FilterConcat(xs, ys, keep);
    assert Filter([x], keep) == Filter([], keep) + [];
  }

  /** Filtering by two conditions gives the same list in either order. */
  lemma {:induction false} FilterCommute<T>(xs: seq<T>, p: T -> bool, q: T -> bool)
    ensures Filter(Filter(xs, p), q) == Filter(Filter(xs, q), p)
    decreases |xs|
  {
    if |xs| > 0 {
      var front := xs[..|xs| - 1];
      var last := xs[|xs| - 1];
      FilterCommute(front, p, q);
      var lastP := if p(last) then [last] else [];
      var lastQ := if q(last) then [last] else [];
      FilterConcat(Filter(front, p), lastP, q);
      FilterConcat(Filter(front, q), lastQ, p);
      assert Filter(lastP, q) == Filter(lastQ, p) by {
        if p(last) {
          assert Filter(lastP, q) == Filter([], q) + (if q(last) then [last] else []);
        }
        if q(last) {
          assert Filter(lastQ, p) == Filter([], p) + (if p(last) then [last] else []);
        }
      }
    }
  }

}

=== FILE: scaling.dfy ===
/** scikit-learn's `MinMaxScaler` with `feature_range=(0, 1)`, over exact reals.
    A fitted scaler remembers the observed minimum and maximum; a zero range is
    replaced by 1, as scikit-learn does, so a constant column only shifts. */
module Scaling {

  import opened Wrappers

  /** A fitted range mapper: `lo` and `hi` are the data minimum and maximum. */
  datatype Scaler = Scaler(lo: real, hi: real)

  predicate Valid(s: Scaler)
  {
    s.lo <= s.hi
  }

  /** Divisor of the affine map; never zero. */
  function Span(s: Scaler): (r: real)
    requires Valid(s)
    ensures r > 0.0
  {
    if s.hi == s.lo then 1.0 else s.hi - s.lo
  }

  /** Dividing by a positive real: multiplying back recovers the dividend,
      the quotient has the dividend's sign, and it is at most 1 (exactly 1)
      when the dividend is at most (exactly) the divisor. */
  lemma DivByPositive(x: real, y: real)
    requires y > 0.0
    ensures (x / y) * y == x
    ensures x < 0.0 <==> x / y < 0.0
    ensures x == 0.0 <==> x / y == 0.0
    ensures x <= y <==> x / y <= 1.0
    ensures x == y <==> x / y == 1.0
  {
    var q := x / y;
    assert q * y == x;
    if x <= y { assert q * y <= 1.0 * y; }
    if q <= 1.0 { assert q * y <= 1.0 * y; }
  }

  /** `transform`: maps the fitted range onto [0, 1]; values outside are not clamped. */
  function Transform(s: Scaler, v: real): (r: real)
    requires Valid(s)
    ensures s.lo <= v <= s.hi ==> 0.0 <= r <= 1.0
    ensures v == s.lo ==> r == 0.0
    ensures s.lo < s.hi && v == s.hi ==> r == 1.0
    ensures v < s.lo ==> r < 0.0
    ensures s.lo < s.hi && v > s.hi ==> r > 1.0
  {
    var d := v - s.lo;
    var sp := Span(s);
    DivByPositive(d, sp);
    d / sp
  }

  /** `inverse_transform`: the algebraic inverse of `Transform`. */
  function Inverse(s: Scaler, u: real): (r: real)
    requires Valid(s)
    ensures Transform(s, r) == u
  {
    u * Span(s) + s.lo
  }

  /** Round trip: scaling then unscaling returns the raw value. */
  lemma RoundTrip(s: Scaler, v: real)
    requires Valid(s)
    ensures Inverse(s, Transform(s, v)) == v
  {
    DivByPositive(v - s.lo, Span(s));
  }

  /** Scaling keeps the relative order of raw values, also outside the fitted range. */
  lemma Monotone(s: Scaler, v: real, w: real)
    requires Valid(s)
    ensures v < w <==> Transform(s, v) < Transform(s, w)
  {
    var sp := Span(s);
    DivByPositive(v - s.lo, sp);
    DivByPositive(w - s.lo, sp);
    DivByPositive(w - v, sp);
    assert Transform(s, w) - Transform(s, v) == (w - v) / sp;
  }

  function MinOf(xs: seq<real>): (m: real)
    requires |xs| > 0
    ensures m in xs
    ensures forall x :: x in xs ==> m <= x
  {
    if |xs| == 1 then xs[0]
    else
      var rest := MinOf(xs[1..]);
      assert forall x :: x in xs ==> x == xs[0] || x in xs[1..];
      if xs[0] <= rest then xs[0] else rest
  }

  function MaxOf(xs: seq<real>): (m: real)
    requires |xs| > 0
    ensures m in xs
    ensures forall x :: x in xs ==> x <= m
  {
    if |xs| == 1 then xs[0]
    else
      var rest := MaxOf(xs[1..]);
      assert forall x :: x in xs ==> x == xs[0] || x in xs[1..];
      if xs[0] >= rest then xs[0] else rest
  }

  /** `fit`: remembers the observed extremes of a non-empty column. */
  function Fit(xs: seq<real>): (s: Scaler)
    requires |xs| > 0
    ensures Valid(s)
    ensures s.lo in xs && s.hi in xs
    ensures forall x :: x in xs ==> s.lo <= x <= s.hi
  {
    Scaler(MinOf(xs), MaxOf(xs))
  }

  /** `transform` applied to a whole column. */
  function TransformAll(s: Scaler, xs: seq<real>): (r: seq<real>)
    requires Valid(s)
    ensures |r| == |xs|
    ensures forall i :: 0 <= i < |xs| ==> Inverse(s, r[i]) == xs[i]
  {
    var r := seq(|xs|, i requires 0 <= i < |xs| => Transform(s, xs[i]));
    forall i | 0 <= i < |xs|
      ensures Inverse(s, r[i]) == xs[i]
    {
      RoundTrip(s, xs[i]);
    }
    r
  }

  /** The values a scaler was fitted on all land in [0, 1] after scaling. */
  lemma {:induction false} FittedColumnInUnit(xs: seq<real>)
    requires |xs| > 0
    ensures forall v :: v in TransformAll(Fit(xs), xs) ==> 0.0 <= v <= 1.0
  {
    var s := Fit(xs);
    var r := TransformAll(s, xs);
    forall v | v in r
      ensures 0.0 <= v <= 1.0
    {
      var i :| 0 <= i < |r| && r[i] == v;
      assert xs[i] in xs;
      assert r[i] == Transform(s, xs[i]);
    }
  }

  /** A column scaled with another column's fit may leave [0, 1]. */
  lemma ForeignColumnMayLeaveUnit()
    ensures TransformAll(Fit([0.0, 10.0]), [20.0]) == [2.0]
  {
    var s := Fit([0.0, 10.0]);
    assert s == Scaler(0.0, 10.0);
  }

  /** The four scalers the forecaster keeps. */
  datatype ScalerBank = ScalerBank(flow: Scaler, location: Scaler, day: Scaler, time: Scaler)

  predicate BankValid(b: ScalerBank)
  {
    Valid(b.flow) && Valid(b.location) && Valid(b.day) && Valid(b.time)
  }

  /** Ranges used when the training data files are absent. */
  const DefaultBank: ScalerBank :=
    ScalerBank(Scaler(0.0, 800.0), Scaler(0.0, 5000.0), Scaler(0.0, 6.0), Scaler(0.0, 1439.0))

  /** The default flow scaler sends 0 and 800 vehicles to 0 and 1. */
  lemma DefaultFlowRange()
    ensures Valid(DefaultBank.flow)
    ensures Transform(DefaultBank.flow, 0.0) == 0.0 && Transform(DefaultBank.flow, 800.0) == 1.0
  {
    assert Transform(Scaler(0.0, 800.0), 800.0) == 1.0;
  }

  /** The default location scaler sends SCATS numbers 0 and 5000 to 0 and 1. */
  lemma DefaultLocationRange()
    ensures Valid(DefaultBank.location)
    ensures Transform(DefaultBank.location, 0.0) == 0.0 && Transform(DefaultBank.location, 5000.0) == 1.0
  {
    assert Transform(Scaler(0.0, 5000.0), 5000.0) == 1.0;
  }

  /** The default weekday scaler sends Monday (0) and Sunday (6) to 0 and 1. */
  lemma DefaultDayRange()
    ensures Valid(DefaultBank.day)
    ensures Transform(DefaultBank.day, 0.0) == 0.0 && Transform(DefaultBank.day, 6.0) == 1.0
  {
    assert Transform(Scaler(0.0, 6.0), 6.0) == 1.0;
  }

  /** The default minute scaler sends minutes 0 and 1439 to 0 and 1. */
  lemma DefaultTimeRange()
    ensures Valid(DefaultBank.time)
    ensures Transform(DefaultBank.time, 0.0) == 0.0 && Transform(DefaultBank.time, 1439.0) == 1.0
  {
    assert Transform(Scaler(0.0, 1439.0), 1439.0) == 1.0;
  }

  /** `get_scalars`: the scalers fitted from the data files when they exist,
      otherwise fixed default ranges. */
  function LoadScalers(fitted: Option<ScalerBank>): (b: ScalerBank)
    requires fitted.Some? ==> BankValid(fitted.value)
    ensures BankValid(b)
    ensures fitted.Some? ==> b == fitted.value
    ensures fitted.None? ==> b == DefaultBank
  {
    match fitted
    case Some(bank) => bank
    case None => DefaultBank
  }

  /** Under the default ranges every quantity round-trips exactly. */
  lemma DefaultRoundTrip(b: ScalerBank, flow: real, location: real, day: real, minute: real)
    requires b == LoadScalers(None)
    ensures Inverse(b.flow, Transform(b.flow, flow)) == flow
    ensures Inverse(b.location, Transform(b.location, location)) == location
    ensures Inverse(b.day, Transform(b.day, day)) == day
    ensures Inverse(b.time, Transform(b.time, minute)) == minute
  {
    RoundTrip(b.flow, flow);
    RoundTrip(b.location, location);
    RoundTrip(b.day, day);
    RoundTrip(b.time, minute);
  }
}

=== FILE: series_data.dfy ===
/** `process_data`: turns two flow columns into lag-window rows
    (`lags` consecutive scaled flows followed by the next one as target). */
module SeriesData {

  import opened Wrappers
  import opened Scaling

  /** One row of the series table: lag features followed by the target. */
  type Row = seq<real>

  /** The row built for source index `i`: `flow[i-lags..i-1] ++ [flow[i]]`. */
  function Window(flow: seq<real>, lags: nat, i: nat): (row: Row)
    requires lags <= i < |flow|
    ensures |row| == lags + 1
    ensures row[lags] == flow[i]
    ensures forall j :: 0 <= j < lags ==> row[j] == flow[i - lags + j]
  {
    flow[i - lags .. i] + [flow[i]]
  }

  /** Number of windows a column of length `n` yields. */
  function WindowCount(n: nat, lags: nat): (count: nat)
  {
    if n > lags then n - lags else 0
  }

  /** Reference definition: every window of a column, in chronological order. */
  function Windows(flow: seq<real>, lags: nat): (rows: seq<Row>)
    ensures |rows| == WindowCount(|flow|, lags)
    ensures NonEmptyRows(rows)
    ensures forall k :: 0 <= k < |rows| ==> k + lags < |flow| && rows[k] == Window(flow, lags, k + lags)
  {
    var n := WindowCount(|flow|, lags);
    var rows := seq(n, k requires 0 <= k < n => Window(flow, lags, k + lags));
    assert forall k :: 0 <= k < n ==> rows[k] == Window(flow, lags, k + lags);
    rows
  }

  /** The `for i in range(lags, len(flow))` loop that appends one window per index. */
  method SlidingWindows(flow: seq<real>, lags: nat) returns (rows: seq<Row>)
    ensures rows == Windows(flow, lags)
  {
    rows := [];
    var i := lags;
    while i < |flow|
      invariant lags <= i
      invariant i <= |flow| || i == lags
      invariant |rows| == i - lags
      invariant forall k :: 0 <= k < |rows| ==> rows[k] == Window(flow, lags, k + lags)
    {
      rows := rows + [Window(flow, lags, i)];
      i := i + 1;
    }
  }

  /** Re-attaches a target column to its feature columns. */
  function Join(xs: seq<Row>, ys: seq<real>): (rows: seq<Row>)
    requires |xs| == |ys|
    ensures |rows| == |xs|
  {
    seq(|xs|, k requires 0 <= k < |xs| => xs[k] + [ys[k]])
  }

  /** Every row has at least its target column. */
  predicate NonEmptyRows(rows: seq<Row>)
  {
    forall k :: 0 <= k < |rows| ==> |rows[k]| > 0
  }

  /** A permutation of rows that all have a target column keeps that property. */
  lemma PermutedNonEmpty(rows: seq<Row>, perm: seq<Row>)
    requires NonEmptyRows(rows) && multiset(perm) == multiset(rows)
    ensures NonEmptyRows(perm)
  {
    forall k | 0 <= k < |perm|
      ensures |perm[k]| > 0
    {
      assert perm[k] in multiset(perm);
      assert perm[k] in rows;
    }
  }

  /** `rows[:, :-1]` and `rows[:, -1]`: features and target of every row. */
  function SplitColumns(rows: seq<Row>): (r: (seq<Row>, seq<real>))
    requires NonEmptyRows(rows)
    ensures |r.0| == |rows| && |r.1| == |rows|
    ensures Join(r.0, r.1) == rows
  {
    var xs := seq(|rows|, k requires 0 <= k < |rows| => rows[k][..|rows[k]| - 1]);
    var ys := seq(|rows|, k requires 0 <= k < |rows| => rows[k][|rows[k]| - 1]);
    assert forall k :: 0 <= k < |rows| ==> xs[k] + [ys[k]] == rows[k];
    (xs, ys)
  }

  /** Splitting a joined table gives back its two parts. */
  lemma SplitJoin(xs: seq<Row>, ys: seq<real>)
    requires |xs| == |ys|
    ensures SplitColumns(Join(xs, ys)) == (xs, ys)
  {
    var rows := Join(xs, ys);
    var r := SplitColumns(rows);
    forall k | 0 <= k < |xs|
      ensures r.0[k] == xs[k] && r.1[k] == ys[k]
    {
      assert rows[k] == xs[k] + [ys[k]];
      assert r.0[k] == rows[k][..|rows[k]| - 1];
    }
    assert r.0 == xs;
    assert r.1 == ys;
  }

  function Swap<T>(s: seq<T>, i: nat, j: nat): (r: seq<T>)
    requires i < |s| && j < |s|
    ensures |r| == |s|
    ensures multiset(r) == multiset(s)
  {
    s[i := s[j]][j := s[i]]
  }

  /** The random choices of a Fisher-Yates pass over `n` items: step `k`
      swaps position `n - 1 - k` with a position no later than it. */
  predicate ValidPicks(picks: seq<nat>, n: nat)
  {
    && |picks| == (if n > 0 then n - 1 else 0)
    && forall k :: 0 <= k < |picks| ==> picks[k] <= n - 1 - k
  }

  function ShuffleFrom<T>(s: seq<T>, picks: seq<nat>, k: nat): (r: seq<T>)
    requires ValidPicks(picks, |s|) && k <= |picks|
    ensures |r| == |s|
    ensures multiset(r) == multiset(s)
    decreases |picks| - k
  {
    if k == |picks| then s
    else ShuffleFrom(Swap(s, |s| - 1 - k, picks[k]), picks, k + 1)
  }

  /** `np.random.shuffle`: an in-place Fisher-Yates shuffle, with its random
      choices supplied by the caller. It only permutes the rows. */
  function Shuffle<T>(s: seq<T>, picks: seq<nat>): (r: seq<T>)
    requires ValidPicks(picks, |s|)
    ensures |r| == |s|
    ensures multiset(r) == multiset(s)
  {
    ShuffleFrom(s, picks, 0)
  }

  /** What `process_data` returns. */
  datatype Processed = Processed(
    xTrain: seq<Row>, yTrain: seq<real>,
    xTest: seq<Row>, yTest: seq<real>,
    x: seq<Row>, y: seq<real>,
    flowScaler: Scaler)

  datatype DataError =
    | EmptyColumn  // the scaler was given a column with no samples
    | NoWindows    // a window table is empty, so its column split fails

  /** Rows that each have a target column still do after concatenation. */
  lemma ConcatNonEmpty(a: seq<Row>, b: seq<Row>)
    requires NonEmptyRows(a) && NonEmptyRows(b)
    ensures NonEmptyRows(a + b)
  {
    forall k | 0 <= k < |a + b|
      ensures |(a + b)[k]| > 0
    {
      if k < |a| { assert (a + b)[k] == a[k]; } else { assert (a + b)[k] == b[k - |a|]; }
    }
  }

  /** The column splits of `data = train + test`, of the shuffled train rows
      and of the test rows, packed into `process_data`'s result. */
  function Assemble(train: seq<Row>, test: seq<Row>, shuffled: seq<Row>, sc: Scaler): (p: Processed)
    requires NonEmptyRows(train) && NonEmptyRows(test) && NonEmptyRows(shuffled)
    ensures |p.x| == |p.y| && Join(p.x, p.y) == train + test
    ensures |p.xTest| == |p.yTest| && Join(p.xTest, p.yTest) == test
    ensures |p.xTrain| == |p.yTrain| && Join(p.xTrain, p.yTrain) == shuffled
    ensures p.flowScaler == sc
  {
    ConcatNonEmpty(train, test);
    var (x, y) := SplitColumns(train + test);
    var (xTrain, yTrain) := SplitColumns(shuffled);
    var (xTest, yTest) := SplitColumns(test);
    Processed(xTrain, yTrain, xTest, yTest, x, y, sc)
  }

  /** What `process_data` promises of its output for two already scaled columns. */
  predicate Tabulated(flow1: seq<real>, flow2: seq<real>, lags: nat, picks: seq<nat>, p: Processed)
    requires ValidPicks(picks, WindowCount(|flow1|, lags))
  {
    var train := Windows(flow1, lags);
    var test := Windows(flow2, lags);
    // the unshuffled table: train rows, then test rows, each in chronological order
    && |p.x| == |p.y| && Join(p.x, p.y) == train + test
    && |p.xTest| == |p.yTest| && Join(p.xTest, p.yTest) == test
    // the train split is the train rows after the shuffle
    && |p.xTrain| == |p.yTrain| && Join(p.xTrain, p.yTrain) == Shuffle(train, picks)
  }

  /** Lines building `train`, `test` and `data`, shuffling `train` and splitting columns. */
  method Tabulate(flow1: seq<real>, flow2: seq<real>, lags: nat, picks: seq<nat>, sc: Scaler)
    returns (r: Result<Processed, DataError>)
    requires ValidPicks(picks, WindowCount(|flow1|, lags))
    ensures r.Ok? <==> |flow1| > lags && |flow2| > lags
    ensures r.Err? ==> r.error == NoWindows
    ensures r.Ok? ==> r.value.flowScaler == sc && Tabulated(flow1, flow2, lags, picks, r.value)
  {
    var train := SlidingWindows(flow1, lags);
    var test := SlidingWindows(flow2, lags);
    if |train| == 0 || |test| == 0 {
      return Err(NoWindows);
    }
    var shuffled := Shuffle(train, picks);
    PermutedNonEmpty(train, shuffled);
    r := Ok(Assemble(train, test, shuffled, sc));
  }

  /** `process_data` on the two raw flow columns (train file, then test file). */
  method ProcessData(raw1: seq<real>, raw2: seq<real>, lags: nat, picks: seq<nat>)
    returns (r: Result<Processed, DataError>)
    requires ValidPicks(picks, WindowCount(|raw1|, lags))
    ensures r == Err(EmptyColumn) <==> |raw1| == 0 || |raw2| == 0
    ensures r.Ok? <==> |raw1| > lags && |raw2| > lags
    // the flow scaler is fitted on the train column only
    ensures r.Ok? ==> r.value.flowScaler == Fit(raw1)
    ensures r.Ok? ==>
              Tabulated(TransformAll(Fit(raw1), raw1), TransformAll(Fit(raw1), raw2), lags, picks, r.value)
    // every train row is kept, once each
    ensures r.Ok? ==>
              multiset(Join(r.value.xTrain, r.value.yTrain))
              == multiset(Windows(TransformAll(Fit(raw1), raw1), lags))
  {
    if |raw1| == 0 || |raw2| == 0 {
      return Err(EmptyColumn);
    }
    var sc := Fit(raw1);
    var flow1 := TransformAll(sc, raw1);
    var flow2 := TransformAll(sc, raw2);
    r := Tabulate(flow1, flow2, lags, picks, sc);
  }
}

=== FILE: wrappers.dfy ===
/** Failure-carrying result types shared by every module of the model. */
module Wrappers {

  /** A value that may be absent; stands for Python's `None` return. */
  datatype Option<+T> = None | Some(value: T)

  /** Either a value or the error the source would raise instead of returning. */
  datatype Result<+T, +E> = Ok(value: T) | Err(error: E)
}
